=== FILE: README.md ===
# Streaming LLM providers: a Dafny model

This project models the deterministic decision logic of two streaming LLM
providers that turn a system prompt and a conversation into one normalised
sequence of stream events (`text`, `reasoning`, `usage`):

- **`OpenAiHandler`**, the HTTP chat-completion provider (`openai.dfy`).
  It chooses the Azure or the plain OpenAI client at construction and forces an
  `X-Task-ID` header. It resolves the model through four registry tables in
  order and shapes the request for one of three model families (default
  `system` turn, R1 layout, o1/o3/o4 `developer` turn). It gates `max_tokens`
  and maps each streamed chunk to text, reasoning and usage events, in that order.
- **`WebSocketHandler`**, the WebSocket provider (`websocket.dfy`,
  `lifecycle.dfy`). It covers the dial request, the single outbound request
  frame, and the classification of inbound frames (error, then content, then
  usage; `reasoning_content` is ignored). It also models the listener session,
  which detaches the listener on every way out. Finally it models the
  `ensureConnected` state machine over the fields `ws` and `connectionPromise`.

Supporting modules: `Wrappers` (optional values standing for `undefined`),
`Js` (JavaScript truthiness: `||`, `??`, `|| 0`, template literals),
`Strings` (`toLowerCase` and `includes`), `Api` (shared records), and
`ModelRegistry` (ordered table lookup, and JavaScript's `key in object`).

The collaborators that the providers import but that are not part of this model
are fields of the record `Api.Env`. Nothing is assumed about them:
`convertToOpenAiMessages`, `convertToR1Format`, `calculateApiCostOpenAI`, the
four registry tables, `openAiModelInfoSaneDefaults` and
`azureOpenAiDefaultApiVersion`. Network I/O is represented by its inputs:
sequences of streamed chunks, sequences of inbound frames, and socket events.

The WebSocket lifecycle is modelled as pure transitions on a state record.
Sockets are numbered in dial order, and each carries the settlement of the
connection promise created with it.

### Behaviour of the source worth knowing

- The HTTP provider emits one usage event for every chunk that carries usage,
  so a stream with several usage chunks reports usage several times.
- The WebSocket provider keeps one replaceable pending promise and no queue of
  frames; it has no `finish_reason` handling. Each frame settles at most one
  promise. A frame with both content and usage reports only the content. A
  frame with neither content, usage nor error replaces the awaited promise
  without settling it, which strands the consuming loop. The stream never
  completes on its own. Reasoning content is never surfaced.
- R1 formatting is selected by `isR1FormatRequired` on the configured
  `openAiModelInfo`, not by the resolved model's info.
- The connection state is the pair of nullable fields `ws` and
  `connectionPromise`; there is no separate state enumeration.

## Model

| member | source | states |
|---|---|---|
| `Strings.Includes` | src/api/providers/openai.ts:27-29 | `s.includes(t)` holds exactly when `t` occurs at some position of `s` |
| `OpenAiProvider.MergeHeaders` | src/api/providers/openai.ts:35-41 | the merged headers hold every custom header plus `X-Task-ID`; `X-Task-ID` is the task id, overriding a custom header of that name |
| `OpenAiProvider.NewClient` | src/api/providers/openai.ts:21-44 | Azure client iff `azureApiVersion` is non-empty, or the lower-cased base URL contains `azure.com`/`azure.us` and the lower-cased model id does not contain `deepseek`; Azure `apiVersion` is the configured one, else the default; both clients carry URL, key and the merged headers with `X-Task-ID` |
| `OpenAiProvider.GetModel` | src/api/providers/openai.ts:109-134 | a non-empty id found in the deepSeek, gemini, openAiNative, anthropic tables resolves to the first table's entry; otherwise id is the configured id or "" and info the configured info or the sane defaults |
| `OpenAiProvider.InheritedNameResolvesToNonModel` | src/api/providers/openai.ts:110-127 | for an id like "toString" that no table registers, the source's `in` test still hits and yields an inherited member, where the corrected lookup falls back to the configured info |
| `OpenAiProvider.GetModelAsWritten` | src/api/providers/openai.ts:109-134 | the source's lookup: id is the configured id or ""; an id the deepSeek table holds yields its entry; an id the deepSeek table lacks that is an inherited object member yields that member; any other non-empty id yields what the corrected lookup yields; an empty or missing id yields the configured info or the sane defaults |
| `OpenAiProvider.GetModelAgreesWithSource` | src/api/providers/openai.ts:109-134 | for every id that is not an inherited object member, the corrected lookup gives exactly what the source's lookup gives |
| `OpenAiProvider.MaxTokensFor` | src/api/providers/openai.ts:62-66 | `max_tokens` is present iff the configured `maxTokens` is present and positive, and then equals it |
| `OpenAiProvider.CreateRequest` | src/api/providers/openai.ts:47-86 | streaming with usage requested; o1/o3/o4 ids get `[developer: prompt] ++ convert(messages)`, no temperature, effort configured-or-"medium"; otherwise deepseek-reasoner or the R1 flag gets `convertToR1Format([user: prompt] ++ messages)`; otherwise `[system: prompt] ++ convert(messages)`; temperature is the configured one else the sane default |
| `OpenAiProvider.ReasoningFamilyOverridesR1` | src/api/providers/openai.ts:68-76 | for an o1/o3/o4 model, neither the R1 flag nor the R1 converter changes the request: the later branch wins |
| `OpenAiProvider.UsageEvent` | src/api/providers/openai.ts:136-157 | one usage event; missing counters are 0; cache hits are cache reads, cache misses cache writes; cost is the cost function of exactly those counters |
| `OpenAiProvider.UsageInputIsUnreduced` | src/api/providers/openai.ts:143-151 | the reported input count is `prompt_tokens` whatever the cache counters are |
| `OpenAiProvider.ChunkEventsShape` | src/api/providers/openai.ts:87-106 | events of a chunk come in the order text, reasoning, usage, each at most once; every event is the chunk's non-empty content, its non-empty reasoning or its usage report; each of those that is present yields its event; a chunk with none of them yields nothing |
| `OpenAiProvider.ChunkPreservesContent` | src/api/providers/openai.ts:87-106 | one chunk's events carry exactly its content, its reasoning and its usage report |
| `OpenAiProvider.StreamEvents` | src/api/providers/openai.ts:87-106 | a one-chunk stream yields exactly that chunk's events, and a stream yields at most three events per chunk |
| `OpenAiProvider.StreamEventsJustified` | src/api/providers/openai.ts:87-106 | each event of a stream is the non-empty content, the non-empty reasoning or the usage report of some chunk of it |
| `OpenAiProvider.StreamEventsAppend` | src/api/providers/openai.ts:87-106 | the events of two streams in sequence are the first stream's events followed by the second's, so the chunks' events come chunk by chunk in stream order |
| `OpenAiProvider.StreamPreservesText` | src/api/providers/openai.ts:87-106 | over a whole stream the text events concatenate to exactly the concatenated content deltas |
| `OpenAiProvider.StreamPreservesReasoning` | src/api/providers/openai.ts:87-106 | over a whole stream the reasoning events concatenate to exactly the reasoning deltas |
| `OpenAiProvider.StreamReportsEveryUsage` | src/api/providers/openai.ts:103-105 | every chunk that carries usage yields exactly one usage event, in stream order |
| `OpenAiProvider.CreateMessage` | src/api/providers/openai.ts:47-106 | a call sends the request shaped for the resolved model's family (model id, turns, temperature, reasoning effort), streaming with usage and the gated `max_tokens`; its events are the chunks' events in stream order; its text events concatenate to all content deltas, its reasoning events to all reasoning deltas, and its usage events are one per usage chunk, in order, priced with the info of the corrected `GetModel` |
| `OpenAiProvider.UsageBeforeTextStream` | src/api/providers/openai.ts:87-106 | a usage-only chunk followed by a content chunk yields the usage event first, then the text |
| `OpenAiProvider.HelloStream` | src/api/providers/openai.ts:87-106 | chunks "Hel", "lo", usage(10, 2) yield text "Hel", text "lo", then usage 10 in / 2 out |
| `ModelRegistry.FirstTable` | src/api/providers/openai.ts:111-127 | the index found is the first table holding the id, and none is found iff no table holds it |
| `ModelRegistry.JsFirstEntry` | src/api/providers/openai.ts:112-127 | the JavaScript `in` lookup misses iff no table holds the id and it is not an inherited object member |
| `ModelRegistry.JsLookupOfForeignName` | src/api/providers/openai.ts:112-127 | an unregistered id hits in the JavaScript lookup iff it is an inherited member, and then yields no table entry |
| `ModelRegistry.JsLookupAgreesOffPrototype` | src/api/providers/openai.ts:112-127 | for ids that are not inherited members the JavaScript lookup is the own-key first-table lookup |
| `WebSocketProvider.GetModel` | src/api/providers/websocket.ts:130-135 | id is the configured id when non-empty, else "websocket-default"; info is the configured info, else the sane defaults |
| `WebSocketProvider.GetModelComparedWithHttp` | src/api/providers/websocket.ts:130-135 | for an unregistered non-empty id both providers resolve the same model; for an empty id the WebSocket provider says "websocket-default" where the HTTP provider says "" |
| `WebSocketProvider.DialFor` | src/api/providers/websocket.ts:38-43 | URL is the base URL when non-empty, else `ws://localhost:3001`; headers are exactly `Authorization: Bearer <key>` (a missing key renders as "undefined") and `X-Task-ID` |
| `WebSocketProvider.BuildPayload` | src/api/providers/websocket.ts:72-78 | messages are the system turn followed by the caller's messages unchanged; model is `getModel().id`; temperature and `max_tokens` are the configured ones or absent; `stream` is true |
| `WebSocketProvider.MaxTokensNotGated` | src/api/providers/websocket.ts:75-76 | a zero or negative `maxTokens` is sent by the WebSocket provider but dropped by the HTTP provider |
| `WebSocketProvider.NoDefaultTemperature` | src/api/providers/websocket.ts:75 | without configured model info the WebSocket payload has no temperature, where the HTTP provider (outside o1/o3/o4) sends the sane-default temperature |
| `WebSocketProvider.UsageData` | src/api/providers/websocket.ts:137-145 | missing counters are 0, both cache counts are 0, and cost is computed with zero cache counts |
| `WebSocketProvider.UsageAgreesWithHttp` | src/api/providers/websocket.ts:137-145 | a WebSocket usage report equals the HTTP one for the same counters and no cache counters |
| `WebSocketProvider.Classify` | src/api/providers/websocket.ts:89-116 | a frame rejects iff it does not parse, is `null`, or has a non-empty `error` (with that message); otherwise non-empty content gives a text event; otherwise usage gives a usage event; a reasoning event is never produced |
| `WebSocketProvider.ReasoningIgnored` | src/api/providers/websocket.ts:97-107 | changing a frame's `reasoning_content` never changes what the handler does |
| `WebSocketProvider.ErrorTakesPrecedence` | src/api/providers/websocket.ts:92-95 | a frame with an error rejects with it whatever content or usage it also carries |
| `WebSocketProvider.Listen` | src/api/providers/websocket.ts:82-127 | every frame before the last one handled delivers one event, and those are the events yielded; the loop is rejected at the first rejecting frame (listener detached), abandoned by the consumer after its count (detached), stranded at the first ignored frame (still attached), or still waiting after all frames (attached); no reasoning event is yielded |
| `WebSocketProvider.DeliveredUsagesPriced` | src/api/providers/websocket.ts:102-106 | every usage event the handler delivers has zero cache counts and is priced with the given model info |
| `WebSocketProvider.CreateMessage` | src/api/providers/websocket.ts:68-127 | when the connection fails nothing is sent; otherwise exactly one request frame is sent, the built payload (resolved model id, system turn and the caller's messages, configured temperature and `max_tokens`, `stream`); the session is the listener session over the inbound frames, so the caller receives exactly the events those frames deliver; it yields no reasoning, prices usage with the resolved model, keeps the listener iff the loop is waiting or stranded, and a server error that ends it is the `error` of one of the frames |
| `WebSocketProvider.UsageFrameKeepsStreamOpen` | src/api/providers/websocket.ts:102-107 | a usage-only frame yields one usage event and the stream stays open with the listener attached |
| `WebSocketProvider.ErrorFrameEndsStream` | src/api/providers/websocket.ts:92-95 | text, then an error frame "rate limited", then more text: the caller sees the first text and the rejection, and the listener is detached |
| `WebSocketProvider.EmptyFrameStrandsStream` | src/api/providers/websocket.ts:97-115 | an empty-content frame, then text "Hi", then an error: the caller sees nothing, the loop is stranded and the listener stays attached |
| `WebSocketLifecycle.EnsureConnected` | src/api/providers/websocket.ts:31-65 | an open `ws` is returned without dialling; a pending promise is awaited by the caller; only with neither is a socket dialled, and it becomes the pending one |
| `WebSocketLifecycle.TwoCallsOneDial` | src/api/providers/websocket.ts:36-63 | two calls made while idle await the same dial, and exactly one socket is created |
| `WebSocketLifecycle.OnEventAsWritten` | src/api/providers/websocket.ts:45-59 | `open` sets `ws` and clears the promise; `error` clears the promise; `close` clears both, whichever socket fired |
| `WebSocketLifecycle.FreshDialAfterFailure` | src/api/providers/websocket.ts:51-59 | after `close` the next call dials afresh; after `error` it does so unless some socket is still open |
| `WebSocketLifecycle.OnEvent` | src/api/providers/websocket.ts:45-59 | corrected handlers: the promise is cleared only by its own socket's event, and `ws` only changes to an opened socket or away from a closing one |
| `WebSocketLifecycle.OneDialMeansOneConnecting` | src/api/providers/websocket.ts:36-37 | under the invariant, two connecting sockets are the same socket |
| `WebSocketLifecycle.DialOnlyWhenIdle` | src/api/providers/websocket.ts:36-37 | under the invariant, a socket is dialled only when no socket is connecting |
| `WebSocketLifecycle.EnsureKeepsOneDial` | src/api/providers/websocket.ts:31-65 | `ensureConnected` keeps the one-dial invariant |
| `WebSocketLifecycle.OnEventKeepsOneDial` | src/api/providers/websocket.ts:45-59 | the corrected handlers keep the one-dial invariant |
| `WebSocketLifecycle.OnlyOneDialInFlight` | src/api/providers/websocket.ts:31-65 | with the corrected handlers, from any state satisfying the invariant, any sequence of calls and socket events keeps it |
| `WebSocketLifecycle.NeverTwoDials` | src/api/providers/websocket.ts:36-63 | with the corrected handlers, from a fresh handler, no sequence of calls and socket events leaves two sockets connecting |
| `WebSocketLifecycle.StaleCloseStartsSecondDial` | src/api/providers/websocket.ts:51-59 | with the source's handlers, a late `close` of a replaced socket lets a second dial start while one is connecting |
| `WebSocketLifecycle.StaleCloseHandled` | src/api/providers/websocket.ts:45-59 | with the corrected handlers the same inputs leave one connecting socket, awaited by both later calls |

## Left out

- The retry wrapper `withRetry` is not part of this model. Each `createMessage` is modelled as one attempt, and no backoff behaviour is assumed.
- `convertToOpenAiMessages` and `convertToR1Format` are not part of this model. They are opaque functions in `Api.Env`, so no claim is made about role merging or turn order inside them.
- `calculateApiCostOpenAI` is not part of this model. It is floating-point, so it is an opaque function of (info, input, output, cacheWrite, cacheRead).
- The registry tables, the sane defaults and the Azure default API version are defined elsewhere. They are parameters in `Api.Env`.
- The OpenAI/Azure SDK clients, `chat.completions.create` and the socket library's I/O are not modelled. Only the chunks, frames and socket events they deliver are, as input sequences.
- Aborting the HTTP request when the consumer abandons the stream belongs to the SDK and is not modelled.
- Message content is plain text. Structured and multimodal blocks are outside the model.
- JSON field values of unexpected types (a numeric `error`, a non-string `content`) are not modelled. Frames are typed records, plus the unparsable and `null` cases.
- `OpenAiProvider.NewClient`: `toLowerCase` is modelled on the ASCII letters only, so non-ASCII case folding is not covered.
- `OpenAiProvider.UsageEvent`: token counts are integers. `NaN` and fractional counts, which `|| 0` would also treat specially, are not modelled.
- `WebSocketProvider.Listen`: assumes every frame arrives while the loop awaits the current promise. Frames that arrive while the consumer is suspended at `yield` are not modelled. In the source, a content, usage, unparsable or `null` frame arriving then settles a promise that the handler immediately replaces, so it is dropped; an ignored frame is harmless then; an `error` frame rejects the current promise without replacing it, so it still ends the stream on the consumer's next pull, unless another frame replaces the promise first. After a stranding frame the listener keeps handling frames, but nothing it does reaches the caller, so the model stops there.
- `OpenAiProvider.CreateMessage`: builds on the corrected `GetModel`, so for a model id that is one of the twelve `Object.prototype` member names and not an own key of the deepSeek table, usage is priced with the configured info or the sane defaults, where the source as written hands an inherited member to the cost function (see Findings); the request is unaffected, since it uses only the id, which both lookups agree on.
- `WebSocketLifecycle.EnsureConnected`: the waiter's `return this.ws!` after the awaited promise resolves is not modelled. If the socket closed in between, that value could be null; this depends on event-loop timing.

## Findings

| source | as written | input that shows it | evidently intended | confidence | as-written member | corrected member |
|---|---|---|---|---|---|---|
| src/api/providers/websocket.ts:51-59 | the `error` and `close` handlers clear `connectionPromise` (and `close` clears `ws`) whichever socket fired, including a socket that has already been replaced | socket 0 opens; the peer starts closing it; a call dials socket 1; socket 0's `close` arrives and clears socket 1's pending promise; the next call dials socket 2 while socket 1 is still connecting | a handler changes only the fields that still refer to its own socket, so at most one dial is ever in flight | medium, not executed | `WebSocketLifecycle.StaleCloseStartsSecondDial` | `WebSocketLifecycle.OnlyOneDialInFlight` |
| src/api/providers/openai.ts:112-127 | `modelId in table` is also true for members inherited from `Object.prototype` | `openAiModelId` = "toString", registered in no table: the deepSeek test hits and `info` becomes an inherited function, not model metadata | only ids a table really holds resolve there; any other id falls back to the configured model info | low, not executed; assumes the tables are plain object literals | `OpenAiProvider.InheritedNameResolvesToNonModel` | `OpenAiProvider.GetModel` |

=== FILE: api.dfy ===
/**
 * Records shared by both providers: the handler options, the model metadata,
 * conversation turns, the canonical stream events, and the collaborators whose
 * code is not part of this model.
 */
module Api {
  import opened Wrappers

  /** Role of a conversation turn. Caller conversations use only User and Assistant. */
  datatype Role = System | Developer | User | Assistant

  /** One role-tagged message; structured content is represented by its text. */
  datatype Turn = Turn(role: Role, content: string)

  /** Per-model metadata (`ModelInfo`); every field may be missing. */
  datatype ModelInfo = ModelInfo(
    maxTokens: Option<int>,
    contextWindow: Option<int>,
    temperature: Option<real>,
    isR1FormatRequired: Option<bool>,
    inputPrice: Option<real>,
    outputPrice: Option<real>,
    cacheWritesPrice: Option<real>,
    cacheReadsPrice: Option<real>)

  /** The fields of `ApiHandlerOptions` that the two providers read. */
  datatype Options = Options(
    openAiApiKey: Option<string>,
    openAiBaseUrl: Option<string>,
    openAiModelId: Option<string>,
    openAiModelInfo: Option<ModelInfo>,
    openAiHeaders: Option<map<string, string>>,
    azureApiVersion: Option<string>,
    o3MiniReasoningEffort: Option<string>,
    taskId: Option<string>)

  /** A resolved model: the `{ id, info }` pair returned by `getModel`. */
  datatype Model = Model(id: string, info: ModelInfo)

  /** HTTP header object; `None` is a key whose value is `undefined`. */
  type Headers = map<string, Option<string>>

  const TaskIdHeader := "X-Task-ID"

  /** The streaming delta of the first choice of a chunk or frame. */
  datatype Delta = Delta(content: Option<string>, reasoningContent: Option<string>)

  datatype Choice = Choice(delta: Option<Delta>)

  /** `choices[0]?.delta?.content`, with a missing value read as the empty string. */
  function FirstContent(choices: seq<Choice>): string {
    if |choices| > 0 && choices[0].delta.Some? then choices[0].delta.value.content.GetOr("") else ""
  }

  /** `choices[0]?.delta?.reasoning_content`, with a missing value read as the empty string. */
  function FirstReasoning(choices: seq<Choice>): string {
    if |choices| > 0 && choices[0].delta.Some? then choices[0].delta.value.reasoningContent.GetOr("") else ""
  }

  /** The canonical stream events (`ApiStream` chunks). */
  datatype Event =
    | Text(text: string)
    | Reasoning(reasoning: string)
    | Usage(inputTokens: int, outputTokens: int, cacheWriteTokens: int, cacheReadTokens: int, totalCost: real)

  /**
   * Collaborators imported by the providers whose code is not part of this model.
   * They are parameters: nothing is assumed about them.
   */
  datatype Env = Env(
    /** `convertToOpenAiMessages` */
    toOpenAiMessages: seq<Turn> -> seq<Turn>,
    /** `convertToR1Format` */
    toR1Format: seq<Turn> -> seq<Turn>,
    /** `calculateApiCostOpenAI(info, input, output, cacheWrite, cacheRead)` */
    cost: (ModelInfo, int, int, int, int) -> real,
    deepSeekModels: map<string, ModelInfo>,
    geminiModels: map<string, ModelInfo>,
    openAiNativeModels: map<string, ModelInfo>,
    anthropicModels: map<string, ModelInfo>,
    /** `openAiModelInfoSaneDefaults` */
    saneDefaults: ModelInfo,
    /** `azureOpenAiDefaultApiVersion` */
    azureDefaultApiVersion: string)
  {
    /** The registry tables in the order `getModel` consults them. */
    function Tables(): seq<map<string, ModelInfo>> {
      [deepSeekModels, geminiModels, openAiNativeModels, anthropicModels]
    }
  }
}

=== FILE: js.dfy ===
/** The few JavaScript value rules the providers rely on. */
module Js {
  import opened Wrappers

  /** A defined, non-empty string: the strings JavaScript treats as true. */
  predicate Truthy(v: Option<string>) {
    v.Some? && v.value != ""
  }

  /** `v || fallback` for an optional string: an empty string also falls back. */
  function OrElse(v: Option<string>, fallback: string): string {
    if Truthy(v) then v.value else fallback
  }

  /** `n || 0` for an optional token count: undefined and 0 both read as 0. */
  function CountOrZero(n: Option<int>): int {
    n.GetOr(0)
  }

  /** How a template literal renders an optional string: `${undefined}` is "undefined". */
  function Interpolate(v: Option<string>): string {
    if v.Some? then v.value else "undefined"
  }
}

=== FILE: lifecycle.dfy ===
/**
 * The connection lifecycle of the WebSocket provider: `ensureConnected` and
 * the `open` / `error` / `close` handlers it installs on each new socket,
 * over the handler's two fields `ws` and `connectionPromise`.
 *
 * Sockets are numbered in the order they are dialled; each socket carries
 * the settlement of the connection promise created with it. `OnEventAsWritten`
 * is the source's handlers, which act on the fields whichever socket fired;
 * `OnEvent` is the corrected handlers, which act only for the socket the
 * fields refer to, and keep at most one dial in flight.
 */
module WebSocketLifecycle {
  import opened Wrappers

  /** `WebSocket.readyState` */
  datatype ReadyState = Connecting | Open | Closing | Closed

  /** The state of a connection promise. */
  datatype Settlement = Pending | Resolved | Rejected

  /** A dialled socket and the connection promise created with it. */
  datatype Socket = Socket(state: ReadyState, promise: Settlement)

  /**
   * `ws` and `connectionPromise` name a socket by its dial number (the
   * promise by the socket it was created with); `sockets` is every socket
   * dialled so far.
   */
  datatype Conn = Conn(ws: Option<nat>, pending: Option<nat>, sockets: seq<Socket>)

  const Initial := Conn(None, None, [])

  /** `ws` names a socket whose `readyState` is OPEN. */
  predicate HasOpenSocket(c: Conn) {
    c.ws.Some? && c.ws.value < |c.sockets| && c.sockets[c.ws.value].state == Open
  }

  // ---------------------------------------------------------------------------
  // ensureConnected
  // ---------------------------------------------------------------------------

  /** What the caller of `ensureConnected` gets: the open socket, or a promise to await. */
  datatype Outcome = Reuse(socket: nat) | Await(dial: nat)

  datatype Ensured = Ensured(conn: Conn, outcome: Outcome)

  /**
   * An open socket is reused; a pending promise is shared; only with neither
   * is a new socket dialled, and its promise becomes the pending one.
   */
  function EnsureConnected(c: Conn): (r: Ensured)
    ensures HasOpenSocket(c) ==> r == Ensured(c, Reuse(c.ws.value))
    ensures !HasOpenSocket(c) && c.pending.Some? ==> r == Ensured(c, Await(c.pending.value))
    ensures !HasOpenSocket(c) && c.pending.None? ==>
      && r.conn == c.(pending := Some(|c.sockets|), sockets := c.sockets + [Socket(Connecting, Pending)])
      && r.outcome == Await(|c.sockets|)
    ensures |r.conn.sockets| != |c.sockets| <==> !HasOpenSocket(c) && c.pending.None?
  {
    if HasOpenSocket(c) then
      Ensured(c, Reuse(c.ws.value))
    else if c.pending.Some? then
      Ensured(c, Await(c.pending.value))
    else
      var id := |c.sockets|;
      Ensured(c.(pending := Some(id), sockets := c.sockets + [Socket(Connecting, Pending)]), Await(id))
  }

  /** Two calls made while nothing is open or pending share one dial. */
  lemma TwoCallsOneDial(c: Conn)
    requires !HasOpenSocket(c) && c.pending.None?
    ensures var first := EnsureConnected(c);
            var second := EnsureConnected(first.conn);
            && first.outcome == second.outcome
            && |second.conn.sockets| == |c.sockets| + 1
  {
  }

  // ---------------------------------------------------------------------------
  // Socket events
  // ---------------------------------------------------------------------------

  /** An event the socket library delivers to socket number `socket`. */
  datatype NetEvent =
    | OnOpen(socket: nat)
    | OnError(socket: nat)
    | PeerClosing(socket: nat)
    | OnClose(socket: nat)

  /** The library can deliver `e` to that socket in its current state. */
  predicate Enabled(c: Conn, e: NetEvent) {
    e.socket < |c.sockets| &&
    match e
    case OnOpen(i) => c.sockets[i].state == Connecting
    case OnError(i) => c.sockets[i].state == Connecting || c.sockets[i].state == Open
    case PeerClosing(i) => c.sockets[i].state == Open
    case OnClose(i) => c.sockets[i].state == Open || c.sockets[i].state == Closing
  }

  /** A promise settles at most once. */
  function Settle(p: Settlement, to: Settlement): Settlement {
    if p == Pending then to else p
  }

  /**
   * What the library itself does: the new `readyState`, and the promise
   * resolved by `open` or rejected by `error` through the closure's own
   * `resolve` and `reject`.
   */
  function LibraryEffect(c: Conn, e: NetEvent): Conn
    requires Enabled(c, e)
  {
    var i := e.socket;
    var s := c.sockets[i];
    match e
    case OnOpen(_) => c.(sockets := c.sockets[i := Socket(Open, Settle(s.promise, Resolved))])
    case OnError(_) => c.(sockets := c.sockets[i := Socket(Closing, Settle(s.promise, Rejected))])
    case PeerClosing(_) => c.(sockets := c.sockets[i := s.(state := Closing)])
    case OnClose(_) => c.(sockets := c.sockets[i := s.(state := Closed)])
  }

  /** The source's handlers: they update the fields whichever socket fired. */
  function OnEventAsWritten(c: Conn, e: NetEvent): (r: Conn)
    ensures !Enabled(c, e) ==> r == c
    ensures Enabled(c, e) ==> r.sockets == LibraryEffect(c, e).sockets
    ensures Enabled(c, e) && e.OnOpen? ==> r.ws == Some(e.socket) && r.pending.None?
    ensures Enabled(c, e) && e.OnError? ==> r.ws == c.ws && r.pending.None?
    ensures Enabled(c, e) && e.OnClose? ==> r.ws.None? && r.pending.None?
    ensures Enabled(c, e) && e.PeerClosing? ==> r.ws == c.ws && r.pending == c.pending
  {
    if !Enabled(c, e) then c
    else
      var c1 := LibraryEffect(c, e);
      match e
      case OnOpen(i) => c1.(ws := Some(i), pending := None)
      case OnError(_) => c1.(pending := None)
      case PeerClosing(_) => c1
      case OnClose(_) => c1.(ws := None, pending := None)
  }

  /** After an `error` or `close`, a socket is dialled afresh unless some socket is still open. */
  lemma FreshDialAfterFailure(c: Conn, e: NetEvent)
    requires Enabled(c, e) && (e.OnError? || e.OnClose?)
    ensures var c' := OnEventAsWritten(c, e);
            !HasOpenSocket(c') ==> |EnsureConnected(c').conn.sockets| == |c.sockets| + 1
    ensures e.OnClose? ==> |EnsureConnected(OnEventAsWritten(c, e)).conn.sockets| == |c.sockets| + 1
  {
  }

  /** The corrected handlers: each acts only for the socket the fields refer to. */
  function OnEvent(c: Conn, e: NetEvent): (r: Conn)
    ensures !Enabled(c, e) ==> r == c
    ensures Enabled(c, e) ==> r.sockets == LibraryEffect(c, e).sockets
    ensures Enabled(c, e) && e.OnOpen? && c.pending == Some(e.socket) ==> r.ws == Some(e.socket) && r.pending.None?
    ensures r.pending != c.pending ==> c.pending == Some(e.socket) && r.pending.None?
    ensures r.ws != c.ws ==> (e.OnOpen? && r.ws == Some(e.socket)) || (c.ws == Some(e.socket) && r.ws.None?)
  {
    if !Enabled(c, e) then c
    else
      var c1 := LibraryEffect(c, e);
      var mine := c.pending == Some(e.socket);
      match e
      case OnOpen(i) => if mine then c1.(ws := Some(i), pending := None) else c1
      case OnError(_) => if mine then c1.(pending := None) else c1
      case PeerClosing(_) => c1
      case OnClose(i) =>
        c1.(ws := if c.ws == Some(i) then None else c.ws, pending := if mine then None else c.pending)
  }

  // ---------------------------------------------------------------------------
  // At most one dial in flight
  // ---------------------------------------------------------------------------

  /**
   * Exactly the pending socket is still connecting, exactly the connecting
   * sockets have an unsettled promise, and the fields name real sockets.
   */
  ghost predicate OneDialInFlight(c: Conn) {
    && (c.ws.Some? ==> c.ws.value < |c.sockets|)
    && (c.pending.Some? ==> c.pending.value < |c.sockets|)
    && (forall j :: 0 <= j < |c.sockets| ==> (c.sockets[j].state == Connecting <==> c.pending == Some(j)))
    && (forall j :: 0 <= j < |c.sockets| ==> (c.sockets[j].promise == Pending <==> c.sockets[j].state == Connecting))
  }

  lemma OneDialMeansOneConnecting(c: Conn, i: nat, j: nat)
    requires OneDialInFlight(c)
    requires i < |c.sockets| && j < |c.sockets|
    requires c.sockets[i].state == Connecting && c.sockets[j].state == Connecting
    ensures i == j
  {
  }

  /** Under the invariant a socket is dialled only while no other is connecting. */
  lemma DialOnlyWhenIdle(c: Conn)
    requires OneDialInFlight(c)
    ensures |EnsureConnected(c).conn.sockets| != |c.sockets| ==>
      forall j :: 0 <= j < |c.sockets| ==> c.sockets[j].state != Connecting
  {
  }

  lemma EnsureKeepsOneDial(c: Conn)
    requires OneDialInFlight(c)
    ensures OneDialInFlight(EnsureConnected(c).conn)
  {
  }

  lemma OnEventKeepsOneDial(c: Conn, e: NetEvent)
    requires OneDialInFlight(c)
    ensures OneDialInFlight(OnEvent(c, e))
  {
  }

  /** The inputs a connection sees: a call to `ensureConnected`, or a socket event. */
  datatype Input = Call | Net(event: NetEvent)

  function Step(c: Conn, x: Input): Conn {
    match x
    case Call => EnsureConnected(c).conn
    case Net(e) => OnEvent(c, e)
  }

  function StepAsWritten(c: Conn, x: Input): Conn {
    match x
    case Call => EnsureConnected(c).conn
    case Net(e) => OnEventAsWritten(c, e)
  }

  /** The state after a sequence of inputs, with the corrected handlers. */
  function Run(c: Conn, xs: seq<Input>): Conn
    decreases |xs|
  {
    if xs == [] then c else Run(Step(c, xs[0]), xs[1..])
  }

  /** The state after a sequence of inputs, with the source's handlers. */
  function RunAsWritten(c: Conn, xs: seq<Input>): Conn
    decreases |xs|
  {
    if xs == [] then c else RunAsWritten(StepAsWritten(c, xs[0]), xs[1..])
  }

  /** With the corrected handlers, whatever calls and socket events arrive, at most one dial is ever in flight. */
  lemma {:induction false} OnlyOneDialInFlight(c: Conn, xs: seq<Input>)
    requires OneDialInFlight(c)
    ensures OneDialInFlight(Run(c, xs))
    decreases |xs|
  {
    if xs != [] {
      match xs[0] {
        case Call => EnsureKeepsOneDial(c);
        case Net(e) => OnEventKeepsOneDial(c, e);
      }
      OnlyOneDialInFlight(Step(c, xs[0]), xs[1..]);
    }
  }

  /** With the corrected handlers, no inputs whatever can leave two sockets connecting at once from a fresh handler. */
  lemma NeverTwoDials(xs: seq<Input>, i: nat, j: nat)
    requires i < |Run(Initial, xs).sockets| && j < |Run(Initial, xs).sockets|
    requires Run(Initial, xs).sockets[i].state == Connecting && Run(Initial, xs).sockets[j].state == Connecting
    ensures i == j
  {
    OnlyOneDialInFlight(Initial, xs);
    OneDialMeansOneConnecting(Run(Initial, xs), i, j);
  }

  /**
   * A socket closes remotely while a call dials a replacement; the old
   * socket's late `close` clears the replacement's pending promise, so the
   * next call dials a third socket while the second is still connecting.
   */
  const StaleCloseTrace: seq<Input> :=
    [Call, Net(OnOpen(0)), Net(PeerClosing(0)), Call, Net(OnClose(0)), Call]

  lemma StaleCloseStartsSecondDial()
    ensures var c := RunAsWritten(Initial, StaleCloseTrace);
            && |c.sockets| == 3
            && c.sockets[1].state == Connecting
            && c.sockets[2].state == Connecting
            && !OneDialInFlight(c)
  {
  }

  /** With the corrected handlers the same inputs leave one dial in flight, awaited by both calls. */
  lemma StaleCloseHandled()
    ensures var c := Run(Initial, StaleCloseTrace);
            && |c.sockets| == 2
            && c.sockets[1].state == Connecting
            && c.pending == Some(1)
            && c.ws.None?
  {
  }
}

=== FILE: openai.dfy ===
/**
 * The HTTP chat-completion provider (`OpenAiHandler`): client selection at
 * construction, model resolution, per-model-family request shaping, and the
 * mapping from streamed chunks to canonical events.
 */
module OpenAiProvider {
  import opened Wrappers
  import opened Js
  import opened Strings
  import opened Api
  import ModelRegistry

  // ---------------------------------------------------------------------------
  // Construction
  // ---------------------------------------------------------------------------

  /** The SDK client built once by the constructor. */
  datatype Client =
    | AzureClient(baseUrl: Option<string>, apiKey: Option<string>, apiVersion: string, headers: Headers)
    | PlainClient(baseUrl: Option<string>, apiKey: Option<string>, headers: Headers)

  /** `{ ...custom, "X-Task-ID": taskId }`: the task id always wins over a custom header of that name. */
  function MergeHeaders(custom: Option<map<string, string>>, taskId: Option<string>): (h: Headers)
    ensures h.Keys == custom.GetOr(map[]).Keys + {TaskIdHeader}
    ensures h[TaskIdHeader] == taskId
    ensures forall k :: k in custom.GetOr(map[]) && k != TaskIdHeader ==> h[k] == Some(custom.GetOr(map[])[k])
  {
    var base := custom.GetOr(map[]);
    (map k | k in base :: Some(base[k]))[TaskIdHeader := taskId]
  }

  /** The base URL names an Azure host, ignoring case. */
  ghost predicate NamesAzureHost(o: Options) {
    o.openAiBaseUrl.Some? &&
    (IsSubstring("azure.com", Lower(o.openAiBaseUrl.value)) || IsSubstring("azure.us", Lower(o.openAiBaseUrl.value)))
  }

  /** The configured model id mentions DeepSeek, ignoring case. */
  ghost predicate NamesDeepSeek(o: Options) {
    o.openAiModelId.Some? && IsSubstring("deepseek", Lower(o.openAiModelId.value))
  }

  /** The constructor: chooses the Azure or the plain OpenAI client. */
  function NewClient(env: Env, o: Options): (c: Client)
    ensures c.AzureClient? <==> Truthy(o.azureApiVersion) || (NamesAzureHost(o) && !NamesDeepSeek(o))
    ensures c.AzureClient? ==> c.apiVersion == OrElse(o.azureApiVersion, env.azureDefaultApiVersion)
    ensures c.AzureClient? && Truthy(o.azureApiVersion) ==> c.apiVersion == o.azureApiVersion.value
    ensures c.baseUrl == o.openAiBaseUrl && c.apiKey == o.openAiApiKey
    ensures TaskIdHeader in c.headers && c.headers[TaskIdHeader] == o.taskId
    ensures c.headers == MergeHeaders(o.openAiHeaders, o.taskId)
  {
    var url := o.openAiBaseUrl;
    var azureHost := url.Some? && (Includes(Lower(url.value), "azure.com") || Includes(Lower(url.value), "azure.us"));
    var deepSeek := o.openAiModelId.Some? && Includes(Lower(o.openAiModelId.value), "deepseek");
    var headers := MergeHeaders(o.openAiHeaders, o.taskId);
    if Truthy(o.azureApiVersion) || (azureHost && !deepSeek) then
      AzureClient(url, o.openAiApiKey, OrElse(o.azureApiVersion, env.azureDefaultApiVersion), headers)
    else
      PlainClient(url, o.openAiApiKey, headers)
  }

  // ---------------------------------------------------------------------------
  // Model resolution
  // ---------------------------------------------------------------------------

  /** `id` is an own key of registry table `k` and of none before it. */
  ghost predicate FirstRegisteredIn(env: Env, id: string, k: int) {
    0 <= k < 4 && id in env.Tables()[k] && forall j :: 0 <= j < k ==> id !in env.Tables()[j]
  }

  /** `getModel`: the first registry table that knows the id, else the configured values. */
  function GetModel(env: Env, o: Options): (m: Model)
    ensures forall k :: Truthy(o.openAiModelId) && FirstRegisteredIn(env, o.openAiModelId.value, k) ==>
      m == Model(o.openAiModelId.value, env.Tables()[k][o.openAiModelId.value])
    ensures (!Truthy(o.openAiModelId) || forall k :: 0 <= k < 4 ==> o.openAiModelId.value !in env.Tables()[k]) ==>
      m == Model(o.openAiModelId.GetOr(""), o.openAiModelInfo.GetOr(env.saneDefaults))
    ensures m.id == o.openAiModelId.GetOr("")
  {
    var hit := if Truthy(o.openAiModelId) then ModelRegistry.FirstTable(env.Tables(), o.openAiModelId.value) else None;
    match hit
    case Some(k) => Model(o.openAiModelId.value, env.Tables()[k][o.openAiModelId.value])
    case None => Model(o.openAiModelId.GetOr(""), o.openAiModelInfo.GetOr(env.saneDefaults))
  }

  /** A model whose info may be an inherited member of a registry table rather than an entry. */
  datatype RawModel = RawModel(id: string, info: ModelRegistry.Entry<ModelInfo>)

  /** `getModel` exactly as JavaScript evaluates it, inherited members of the tables included. */
  function GetModelAsWritten(env: Env, o: Options): (r: RawModel)
    ensures r.id == o.openAiModelId.GetOr("")
    ensures Truthy(o.openAiModelId) && o.openAiModelId.value in env.deepSeekModels ==>
      r.info == ModelRegistry.Own(env.deepSeekModels[o.openAiModelId.value])
    ensures Truthy(o.openAiModelId) && o.openAiModelId.value !in env.deepSeekModels
            && o.openAiModelId.value in ModelRegistry.ObjectPrototypeMembers ==>
      r.info == ModelRegistry.Inherited(o.openAiModelId.value)
    ensures Truthy(o.openAiModelId) && o.openAiModelId.value !in ModelRegistry.ObjectPrototypeMembers ==>
      r.info == ModelRegistry.Own(GetModel(env, o).info)
    ensures !Truthy(o.openAiModelId) ==> r.info == ModelRegistry.Own(o.openAiModelInfo.GetOr(env.saneDefaults))
  {
    var configured := ModelRegistry.Own(o.openAiModelInfo.GetOr(env.saneDefaults));
    if Truthy(o.openAiModelId) then
      var id := o.openAiModelId.value;
      ModelRegistry.JsLookupAgreesOffPrototype(env.Tables(), id);
      match ModelRegistry.JsFirstEntry(env.Tables(), id)
      case Some(entry) => RawModel(id, entry)
      case None => RawModel(id, configured)
    else
      RawModel(o.openAiModelId.GetOr(""), configured)
  }

  /**
   * A model id such as "toString" that no table registers still passes the
   * `in` test, so the source resolves it to an inherited function instead of
   * the configured model info that the corrected `GetModel` falls back to.
   */
  lemma InheritedNameResolvesToNonModel(env: Env, o: Options, name: string)
    requires name in ModelRegistry.ObjectPrototypeMembers
    requires o.openAiModelId == Some(name)
    requires forall k :: 0 <= k < 4 ==> name !in env.Tables()[k]
    ensures GetModelAsWritten(env, o).info == ModelRegistry.Inherited(name)
    ensures GetModel(env, o) == Model(name, o.openAiModelInfo.GetOr(env.saneDefaults))
  {
  }

  /** For every id that is not an inherited member, the corrected lookup agrees with the source. */
  lemma GetModelAgreesWithSource(env: Env, o: Options)
    requires !Truthy(o.openAiModelId) || o.openAiModelId.value !in ModelRegistry.ObjectPrototypeMembers
    ensures GetModelAsWritten(env, o) == RawModel(GetModel(env, o).id, ModelRegistry.Own(GetModel(env, o).info))
  {
    if Truthy(o.openAiModelId) {
      ModelRegistry.JsLookupAgreesOffPrototype(env.Tables(), o.openAiModelId.value);
    }
  }

  // ---------------------------------------------------------------------------
  // Request shaping
  // ---------------------------------------------------------------------------

  /** The body of `chat.completions.create`. */
  datatype ChatRequest = ChatRequest(
    model: string,
    messages: seq<Turn>,
    temperature: Option<real>,
    maxTokens: Option<int>,
    reasoningEffort: Option<string>,
    stream: bool,
    includeUsage: bool)

  ghost predicate IsDeepSeekReasoner(id: string) {
    IsSubstring("deepseek-reasoner", id)
  }

  /** The o1/o3/o4 families, recognised by substring anywhere in the id. */
  ghost predicate IsReasoningFamily(id: string) {
    IsSubstring("o1", id) || IsSubstring("o3", id) || IsSubstring("o4", id)
  }

  /** The model info flag asking for the R1 turn layout (missing reads as false). */
  predicate R1FlagSet(o: Options) {
    o.openAiModelInfo.Some? && o.openAiModelInfo.value.isR1FormatRequired.GetOr(false)
  }

  /** `openAiModelInfo?.temperature ?? openAiModelInfoSaneDefaults.temperature` */
  function ConfiguredTemperature(env: Env, o: Options): Option<real> {
    if o.openAiModelInfo.Some? && o.openAiModelInfo.value.temperature.Some? then o.openAiModelInfo.value.temperature
    else env.saneDefaults.temperature
  }

  /** `max_tokens`: sent only for a configured, positive limit. */
  function MaxTokensFor(o: Options): (r: Option<int>)
    ensures r.Some? <==>
      o.openAiModelInfo.Some? && o.openAiModelInfo.value.maxTokens.Some? && o.openAiModelInfo.value.maxTokens.value > 0
    ensures r.Some? ==> r == o.openAiModelInfo.value.maxTokens
  {
    if o.openAiModelInfo.Some? && o.openAiModelInfo.value.maxTokens.Some? && o.openAiModelInfo.value.maxTokens.value > 0
    then o.openAiModelInfo.value.maxTokens
    else None
  }

  /** The request `createMessage` sends; the later reasoning-family branch overrides the R1 one. */
  function CreateRequest(env: Env, o: Options, systemPrompt: string, messages: seq<Turn>): (r: ChatRequest)
    ensures r.model == GetModel(env, o).id
    ensures r.stream && r.includeUsage
    ensures r.maxTokens == MaxTokensFor(o)
    ensures IsReasoningFamily(r.model) ==>
      && r.messages == [Turn(Developer, systemPrompt)] + env.toOpenAiMessages(messages)
      && r.temperature == None
      && r.reasoningEffort == Some(OrElse(o.o3MiniReasoningEffort, "medium"))
    ensures !IsReasoningFamily(r.model) && (IsDeepSeekReasoner(r.model) || R1FlagSet(o)) ==>
      && r.messages == env.toR1Format([Turn(User, systemPrompt)] + messages)
      && r.temperature == ConfiguredTemperature(env, o)
      && r.reasoningEffort == None
    ensures !IsReasoningFamily(r.model) && !IsDeepSeekReasoner(r.model) && !R1FlagSet(o) ==>
      && r.messages == [Turn(System, systemPrompt)] + env.toOpenAiMessages(messages)
      && r.temperature == ConfiguredTemperature(env, o)
      && r.reasoningEffort == None
  {
    var modelId := GetModel(env, o).id;
    var deepSeekReasoner := Includes(modelId, "deepseek-reasoner");
    var reasoningFamily := Includes(modelId, "o1") || Includes(modelId, "o3") || Includes(modelId, "o4");
    var defaultTurns := [Turn(System, systemPrompt)] + env.toOpenAiMessages(messages);
    var turns := if deepSeekReasoner || R1FlagSet(o) then env.toR1Format([Turn(User, systemPrompt)] + messages) else defaultTurns;
    if reasoningFamily then
      ChatRequest(modelId, [Turn(Developer, systemPrompt)] + env.toOpenAiMessages(messages), None,
                  MaxTokensFor(o), Some(OrElse(o.o3MiniReasoningEffort, "medium")), true, true)
    else
      ChatRequest(modelId, turns, ConfiguredTemperature(env, o), MaxTokensFor(o), None, true, true)
  }

  /**
   * For an o1/o3/o4 model the R1 flag and the R1 converter make no difference:
   * the later branch replaces whatever the R1 branch produced.
   */
  lemma ReasoningFamilyOverridesR1(env: Env, o: Options, flag: bool, toR1: seq<Turn> -> seq<Turn>,
                                   systemPrompt: string, messages: seq<Turn>)
    requires IsReasoningFamily(GetModel(env, o).id)
    ensures var info := o.openAiModelInfo.GetOr(env.saneDefaults);
            var o' := o.(openAiModelInfo := Some(info.(isR1FormatRequired := Some(flag))));
            CreateRequest(env.(toR1Format := toR1), o', systemPrompt, messages)
              == CreateRequest(env, o, systemPrompt, messages).(maxTokens := MaxTokensFor(o'))
  {
  }

  // ---------------------------------------------------------------------------
  // Streamed chunks to events
  // ---------------------------------------------------------------------------

  /** Token counters of a chunk; the cache counters are a DeepSeek extension. */
  datatype CompletionUsage = CompletionUsage(
    promptTokens: Option<int>,
    completionTokens: Option<int>,
    promptCacheHitTokens: Option<int>,
    promptCacheMissTokens: Option<int>)

  /** One streamed `chat.completion.chunk`. */
  datatype Chunk = Chunk(choices: seq<Choice>, usage: Option<CompletionUsage>)

  /** `yieldUsage`: cache hits are cache reads, cache misses are cache writes. */
  function UsageEvent(env: Env, info: ModelInfo, u: CompletionUsage): (e: Event)
    ensures e.Usage?
    ensures e.inputTokens == CountOrZero(u.promptTokens)
    ensures e.outputTokens == CountOrZero(u.completionTokens)
    ensures e.cacheReadTokens == CountOrZero(u.promptCacheHitTokens)
    ensures e.cacheWriteTokens == CountOrZero(u.promptCacheMissTokens)
    ensures e.totalCost == env.cost(info, e.inputTokens, e.outputTokens, e.cacheWriteTokens, e.cacheReadTokens)
  {
    var input := CountOrZero(u.promptTokens);
    var output := CountOrZero(u.completionTokens);
    var cacheRead := CountOrZero(u.promptCacheHitTokens);
    var cacheWrite := CountOrZero(u.promptCacheMissTokens);
    Usage(input, output, cacheWrite, cacheRead, env.cost(info, input, output, cacheWrite, cacheRead))
  }

  /** The reported input count is the prompt count as sent: cache counters never reduce it. */
  lemma UsageInputIsUnreduced(env: Env, info: ModelInfo, u: CompletionUsage, hit: Option<int>, miss: Option<int>)
    ensures UsageEvent(env, info, u.(promptCacheHitTokens := hit, promptCacheMissTokens := miss)).inputTokens
         == UsageEvent(env, info, u).inputTokens
  {
  }

  /** Position of an event kind in the per-chunk emission order. */
  function Rank(e: Event): nat {
    match e
    case Text(_) => 0
    case Reasoning(_) => 1
    case Usage(_, _, _, _, _) => 2
  }

  /** The event a chunk justifies: its text, its reasoning, or its usage report. */
  predicate FromChunk(env: Env, info: ModelInfo, c: Chunk, e: Event) {
    match e
    case Text(t) => t == FirstContent(c.choices) && t != ""
    case Reasoning(t) => t == FirstReasoning(c.choices) && t != ""
    case Usage(_, _, _, _, _) => c.usage.Some? && e == UsageEvent(env, info, c.usage.value)
  }

  /** The events of one chunk: text, then reasoning, then usage, each only when present. */
  function ChunkEvents(env: Env, info: ModelInfo, c: Chunk): seq<Event> {
    var text := FirstContent(c.choices);
    var reasoning := FirstReasoning(c.choices);
    var t := if text != "" then [Text(text)] else [];
    var rz := if reasoning != "" then [Reasoning(reasoning)] else [];
    var u := if c.usage.Some? then [UsageEvent(env, info, c.usage.value)] else [];
    t + rz + u
  }

  /**
   * A chunk's events come in the order text, reasoning, usage, each at most
   * once; each is justified by the chunk; each part present yields its event.
   */
  lemma ChunkEventsShape(env: Env, info: ModelInfo, c: Chunk)
    ensures var r := ChunkEvents(env, info, c);
      && (forall i, j :: 0 <= i < j < |r| ==> Rank(r[i]) < Rank(r[j]))
      && (forall i :: 0 <= i < |r| ==> FromChunk(env, info, c, r[i]))
      && (FirstContent(c.choices) != "" ==> |r| > 0 && r[0] == Text(FirstContent(c.choices)))
      && (FirstReasoning(c.choices) != "" ==> Reasoning(FirstReasoning(c.choices)) in r)
      && (c.usage.Some? ==> |r| > 0 && r[|r| - 1] == UsageEvent(env, info, c.usage.value))
      && (r == [] <==> FirstContent(c.choices) == "" && FirstReasoning(c.choices) == "" && c.usage.None?)
  {
  }

  /** The events of a whole stream, chunk by chunk: at most three per chunk. */
  function StreamEvents(env: Env, info: ModelInfo, chunks: seq<Chunk>): (r: seq<Event>)
    ensures |chunks| == 1 ==> r == ChunkEvents(env, info, chunks[0])
    ensures |r| <= 3 * |chunks|
    decreases |chunks|
  {
    if chunks == [] then [] else ChunkEvents(env, info, chunks[0]) + StreamEvents(env, info, chunks[1..])
  }

  /** Every event of a stream is justified by some chunk of it. */
  lemma {:induction false} StreamEventsJustified(env: Env, info: ModelInfo, chunks: seq<Chunk>)
    ensures forall i :: 0 <= i < |StreamEvents(env, info, chunks)| ==>
      exists k :: 0 <= k < |chunks| && FromChunk(env, info, chunks[k], StreamEvents(env, info, chunks)[i])
    decreases |chunks|
  {
    if chunks != [] {
      var r := StreamEvents(env, info, chunks);
      var head := ChunkEvents(env, info, chunks[0]);
      var tail := StreamEvents(env, info, chunks[1..]);
      StreamEventsJustified(env, info, chunks[1..]);
      assert r == head + tail;
      forall i | 0 <= i < |r|
        ensures exists k :: 0 <= k < |chunks| && FromChunk(env, info, chunks[k], r[i])
      {
        if i < |head| {
          assert r[i] == head[i];
          assert FromChunk(env, info, chunks[0], r[i]);
        } else {
          assert r[i] == tail[i - |head|];
          var k :| 0 <= k < |chunks[1..]| && FromChunk(env, info, chunks[1..][k], tail[i - |head|]);
          assert chunks[1..][k] == chunks[k + 1];
          assert FromChunk(env, info, chunks[k + 1], r[i]);
        }
      }
    } else {
      assert StreamEvents(env, info, chunks) == [];
    }
  }

  // ---------------------------------------------------------------------------
  // Nothing lost, nothing duplicated
  // ---------------------------------------------------------------------------

  /** The assistant text carried by a sequence of events. */
  function TextOf(events: seq<Event>): string {
    if events == [] then "" else (if events[0].Text? then events[0].text else "") + TextOf(events[1..])
  }

  /** The reasoning text carried by a sequence of events. */
  function ReasoningOf(events: seq<Event>): string {
    if events == [] then "" else (if events[0].Reasoning? then events[0].reasoning else "") + ReasoningOf(events[1..])
  }

  /** The usage events of a sequence of events, in order. */
  function UsagesOf(events: seq<Event>): seq<Event> {
    if events == [] then [] else (if events[0].Usage? then [events[0]] else []) + UsagesOf(events[1..])
  }

  /** The concatenated content deltas of a stream. */
  function ContentOf(chunks: seq<Chunk>): string {
    if chunks == [] then "" else FirstContent(chunks[0].choices) + ContentOf(chunks[1..])
  }

  /** The concatenated reasoning deltas of a stream. */
  function ReasoningContentOf(chunks: seq<Chunk>): string {
    if chunks == [] then "" else FirstReasoning(chunks[0].choices) + ReasoningContentOf(chunks[1..])
  }

  /** One usage record per chunk that carries usage counters, in stream order. */
  function ReportedUsages(env: Env, info: ModelInfo, chunks: seq<Chunk>): seq<Event> {
    if chunks == [] then []
    else (if chunks[0].usage.Some? then [UsageEvent(env, info, chunks[0].usage.value)] else [])
         + ReportedUsages(env, info, chunks[1..])
  }

  lemma {:induction false} TextOfAppend(a: seq<Event>, b: seq<Event>)
    ensures TextOf(a + b) == TextOf(a) + TextOf(b)
    decreases |a|
  {
    if a != [] {
      assert (a + b)[1..] == a[1..] + b;
      TextOfAppend(a[1..], b);
    } else {
      assert a + b == b;
    }
  }

  lemma {:induction false} ReasoningOfAppend(a: seq<Event>, b: seq<Event>)
    ensures ReasoningOf(a + b) == ReasoningOf(a) + ReasoningOf(b)
    decreases |a|
  {
    if a != [] {
      assert (a + b)[1..] == a[1..] + b;
      ReasoningOfAppend(a[1..], b);
    } else {
      assert a + b == b;
    }
  }

  lemma {:induction false} UsagesOfAppend(a: seq<Event>, b: seq<Event>)
    ensures UsagesOf(a + b) == UsagesOf(a) + UsagesOf(b)
    decreases |a|
  {
    if a != [] {
      assert (a + b)[1..] == a[1..] + b;
      UsagesOfAppend(a[1..], b);
    } else {
      assert a + b == b;
    }
  }

  /** The three parts of a chunk's events, as `ChunkEvents` builds them. */
  lemma ChunkParts(env: Env, info: ModelInfo, c: Chunk)
    returns (t: seq<Event>, rz: seq<Event>, u: seq<Event>)
    ensures ChunkEvents(env, info, c) == t + rz + u
    ensures TextOf(t) == FirstContent(c.choices) && ReasoningOf(t) == "" && UsagesOf(t) == []
    ensures TextOf(rz) == "" && ReasoningOf(rz) == FirstReasoning(c.choices) && UsagesOf(rz) == []
    ensures TextOf(u) == "" && ReasoningOf(u) == "" && UsagesOf(u) == ReportedUsages(env, info, [c])
  {
    t := if FirstContent(c.choices) != "" then [Text(FirstContent(c.choices))] else [];
    rz := if FirstReasoning(c.choices) != "" then [Reasoning(FirstReasoning(c.choices))] else [];
    u := if c.usage.Some? then [UsageEvent(env, info, c.usage.value)] else [];
    assert [c][1..] == [];
    if t != [] { assert t[1..] == []; }
    if rz != [] { assert rz[1..] == []; }
    if u != [] { assert u[1..] == []; }
  }

  /** Within one chunk: its text, its reasoning and its usage report, each at most once. */
  lemma ChunkPreservesContent(env: Env, info: ModelInfo, c: Chunk)
    ensures TextOf(ChunkEvents(env, info, c)) == FirstContent(c.choices)
    ensures ReasoningOf(ChunkEvents(env, info, c)) == FirstReasoning(c.choices)
    ensures UsagesOf(ChunkEvents(env, info, c)) == ReportedUsages(env, info, [c])
  {
    var t, rz, u := ChunkParts(env, info, c);
    TextOfAppend(t + rz, u);
    TextOfAppend(t, rz);
    ReasoningOfAppend(t + rz, u);
    ReasoningOfAppend(t, rz);
    UsagesOfAppend(t + rz, u);
    UsagesOfAppend(t, rz);
  }

  /** Across a whole stream the text events spell exactly the content deltas. */
  lemma {:induction false} StreamPreservesText(env: Env, info: ModelInfo, chunks: seq<Chunk>)
    ensures TextOf(StreamEvents(env, info, chunks)) == ContentOf(chunks)
    decreases |chunks|
  {
    if chunks != [] {
      var head := ChunkEvents(env, info, chunks[0]);
      var tail := StreamEvents(env, info, chunks[1..]);
      StreamPreservesText(env, info, chunks[1..]);
      ChunkPreservesContent(env, info, chunks[0]);
      TextOfAppend(head, tail);
    }
  }

  /** Across a whole stream the reasoning events spell exactly the reasoning deltas. */
  lemma {:induction false} StreamPreservesReasoning(env: Env, info: ModelInfo, chunks: seq<Chunk>)
    ensures ReasoningOf(StreamEvents(env, info, chunks)) == ReasoningContentOf(chunks)
    decreases |chunks|
  {
    if chunks != [] {
      var head := ChunkEvents(env, info, chunks[0]);
      var tail := StreamEvents(env, info, chunks[1..]);
      StreamPreservesReasoning(env, info, chunks[1..]);
      ChunkPreservesContent(env, info, chunks[0]);
      ReasoningOfAppend(head, tail);
    }
  }

  /** Every chunk that reports usage yields exactly one usage event, in stream order. */
  lemma {:induction false} StreamReportsEveryUsage(env: Env, info: ModelInfo, chunks: seq<Chunk>)
    ensures UsagesOf(StreamEvents(env, info, chunks)) == ReportedUsages(env, info, chunks)
    decreases |chunks|
  {
    if chunks != [] {
      var head := ChunkEvents(env, info, chunks[0]);
      var tail := StreamEvents(env, info, chunks[1..]);
      StreamReportsEveryUsage(env, info, chunks[1..]);
      ChunkPreservesContent(env, info, chunks[0]);
      UsagesOfAppend(head, tail);
      ReportedUsagesSplit(env, info, chunks);
    }
  }

  lemma ReportedUsagesSplit(env: Env, info: ModelInfo, chunks: seq<Chunk>)
    requires chunks != []
    ensures ReportedUsages(env, info, chunks) == ReportedUsages(env, info, [chunks[0]]) + ReportedUsages(env, info, chunks[1..])
  {
    assert [chunks[0]][1..] == [];
  }

  /**
   * Streams compose: the events of two streams in sequence are the events of
   * the first followed by those of the second, so, with the single-chunk case
   * of `StreamEvents`, every chunk's events appear in stream order.
   */
  lemma {:induction false} StreamEventsAppend(env: Env, info: ModelInfo, a: seq<Chunk>, b: seq<Chunk>)
    ensures StreamEvents(env, info, a + b) == StreamEvents(env, info, a) + StreamEvents(env, info, b)
    decreases |a|
  {
    if a == [] {
      assert a + b == b;
    } else {
      assert (a + b)[0] == a[0];
      assert (a + b)[1..] == a[1..] + b;
      StreamEventsAppend(env, info, a[1..], b);
    }
  }

  /** A usage-only chunk before a content chunk: the usage event comes first, as the chunks do. */
  lemma UsageBeforeTextStream(env: Env, info: ModelInfo)
    ensures var u := CompletionUsage(Some(5), Some(1), None, None);
            var chunks := [Chunk([], Some(u)), Chunk([Choice(Some(Delta(Some("a"), None)))], None)];
            StreamEvents(env, info, chunks) == [UsageEvent(env, info, u), Text("a")]
  {
  }

  /** Three chunks "Hel", "lo" and a usage report give two text events, then one usage event. */
  lemma HelloStream(env: Env, info: ModelInfo)
    ensures var chunks := [
              Chunk([Choice(Some(Delta(Some("Hel"), None)))], None),
              Chunk([Choice(Some(Delta(Some("lo"), None)))], None),
              Chunk([], Some(CompletionUsage(Some(10), Some(2), None, None)))];
            StreamEvents(env, info, chunks) == [Text("Hel"), Text("lo"), Usage(10, 2, 0, 0, env.cost(info, 10, 2, 0, 0))]
  {
  }

  // ---------------------------------------------------------------------------
  // One call
  // ---------------------------------------------------------------------------

  /** One `createMessage` call: the request it sends and the events its stream yields. */
  datatype HttpCall = HttpCall(request: ChatRequest, events: seq<Event>)

  /**
   * The request is the one shaped for the resolved model's family; the events
   * are the chunks' events in stream order, so they carry every chunk's text
   * and reasoning, in order, and one usage report per chunk that has one,
   * priced with the resolved model.
   */
  function CreateMessage(env: Env, o: Options, systemPrompt: string, messages: seq<Turn>, chunks: seq<Chunk>): (c: HttpCall)
    ensures c.request == CreateRequest(env, o, systemPrompt, messages)
    ensures c.request.model == GetModel(env, o).id
    ensures c.request.stream && c.request.includeUsage
    ensures c.request.maxTokens == MaxTokensFor(o)
    ensures c.events == StreamEvents(env, GetModel(env, o).info, chunks)
    ensures TextOf(c.events) == ContentOf(chunks)
    ensures ReasoningOf(c.events) == ReasoningContentOf(chunks)
    ensures UsagesOf(c.events) == ReportedUsages(env, GetModel(env, o).info, chunks)
  {
    var info := GetModel(env, o).info;
    StreamPreservesText(env, info, chunks);
    StreamPreservesReasoning(env, info, chunks);
    StreamReportsEveryUsage(env, info, chunks);
    HttpCall(CreateRequest(env, o, systemPrompt, messages), StreamEvents(env, info, chunks))
  }
}

=== FILE: registry.dfy ===
/**
 * Ordered lookup of a model id in the provider registry tables, and the
 * JavaScript `key in table` test the source uses for it.
 */
module ModelRegistry {
  import opened Wrappers

  /** Index of the first table that holds `key` as one of its own keys. */
  function FirstTable<V>(tables: seq<map<string, V>>, key: string): (r: Option<nat>)
    ensures r.Some? ==> r.value < |tables| && key in tables[r.value]
    ensures r.Some? ==> forall j :: 0 <= j < r.value ==> key !in tables[j]
    ensures r.None? <==> forall j :: 0 <= j < |tables| ==> key !in tables[j]
  {
    if |tables| == 0 then None
    else if key in tables[0] then Some(0)
    else
      match FirstTable(tables[1..], key)
      case Some(i) => Some(i + 1)
      case None => None
  }

  /**
   * Names every plain JavaScript object inherits from `Object.prototype`;
   * `name in obj` is true for them even when `obj` has no such own key.
   */
  const ObjectPrototypeMembers: set<string> := {
    "constructor", "hasOwnProperty", "isPrototypeOf", "propertyIsEnumerable",
    "toLocaleString", "toString", "valueOf", "__proto__",
    "__defineGetter__", "__defineSetter__", "__lookupGetter__", "__lookupSetter__"
  }

  /** What `table[key]` yields after `key in table` succeeded. */
  datatype Entry<V> = Own(value: V) | Inherited(member: string)

  /** JavaScript's `key in table` on a plain object literal. */
  predicate JsIn<V>(key: string, table: map<string, V>) {
    key in table || key in ObjectPrototypeMembers
  }

  /** The first-hit lookup as JavaScript evaluates it: inherited members also hit. */
  function JsFirstEntry<V>(tables: seq<map<string, V>>, key: string): (r: Option<Entry<V>>)
    ensures r.None? <==> forall j :: 0 <= j < |tables| ==> !JsIn(key, tables[j])
  {
    if |tables| == 0 then None
    else if key in tables[0] then Some(Own(tables[0][key]))
    else if key in ObjectPrototypeMembers then Some(Inherited(key))
    else JsFirstEntry(tables[1..], key)
  }

  /**
   * For a name that is not an own key of any table, the JavaScript lookup hits
   * exactly when the name is an inherited member, and then yields no table entry.
   */
  lemma JsLookupOfForeignName<V>(tables: seq<map<string, V>>, key: string)
    requires |tables| > 0
    requires forall j :: 0 <= j < |tables| ==> key !in tables[j]
    ensures key in ObjectPrototypeMembers ==> JsFirstEntry(tables, key) == Some(Inherited(key))
    ensures key !in ObjectPrototypeMembers ==> JsFirstEntry(tables, key).None?
  {
  }

  /** On names that are not inherited members, the JavaScript lookup is the own-key lookup. */
  lemma {:induction false} JsLookupAgreesOffPrototype<V>(tables: seq<map<string, V>>, key: string)
    ensures key !in ObjectPrototypeMembers && FirstTable(tables, key).Some? ==>
      JsFirstEntry(tables, key) == Some(Own(tables[FirstTable(tables, key).value][key]))
    ensures key !in ObjectPrototypeMembers && FirstTable(tables, key).None? ==> JsFirstEntry(tables, key).None?
  {
    if |tables| > 0 && key !in tables[0] {
      JsLookupAgreesOffPrototype(tables[1..], key);
    }
  }
}

=== FILE: strings.dfy ===
/** String operations used by the providers' model-name tests. */
module Strings {

  /** Lower-cases one character; only the ASCII letters A-Z change. */
  function LowerChar(c: char): char {
    if 'A' <= c <= 'Z' then (c as int + 32) as char else c
  }

  /** `s.toLowerCase()`, restricted to ASCII letters. */
  function Lower(s: string): string {
    seq(|s|, i requires 0 <= i < |s| => LowerChar(s[i]))
  }

  /** `t` occurs in `s` starting at position `i`. */
  ghost predicate OccursAt(t: string, s: string, i: int) {
    0 <= i && i + |t| <= |s| && s[i..i + |t|] == t
  }

  /** `t` occurs somewhere in `s`: the meaning of `s.includes(t)`. */
  ghost predicate IsSubstring(t: string, s: string) {
    exists i :: OccursAt(t, s, i)
  }

  /** `s.includes(t)`, computed by scanning `s` from the left. */
  function Includes(s: string, t: string): (r: bool)
    ensures r <==> IsSubstring(t, s)
    decreases |s|
  {
    if |t| > |s| then
      assert forall i :: !OccursAt(t, s, i);
      false
    else if s[..|t|] == t then
      assert OccursAt(t, s, 0);
      true
    else
      var rest := Includes(s[1..], t);
      assert forall i :: OccursAt(t, s[1..], i) <==> OccursAt(t, s, i + 1);
      assert !OccursAt(t, s, 0);
      assert IsSubstring(t, s) ==> IsSubstring(t, s[1..]) by {
        if IsSubstring(t, s) {
          var i :| OccursAt(t, s, i);
          assert OccursAt(t, s[1..], i - 1);
        }
      }
      rest
  }
}

=== FILE: websocket.dfy ===
/**
 * The WebSocket provider (`WebSocketHandler`): model resolution, the dial
 * request, the outbound payload, inbound-frame classification, and the
 * listener session of one `createMessage` call. The connection lifecycle is
 * in module WebSocketLifecycle.
 */
module WebSocketProvider {
  import opened Wrappers
  import opened Js
  import opened Api
  import OpenAiProvider

  const DefaultUrl := "ws://localhost:3001"
  const DefaultModelId := "websocket-default"
  const AuthorizationHeader := "Authorization"

  // ---------------------------------------------------------------------------
  // Model resolution
  // ---------------------------------------------------------------------------

  /** `getModel`: no registry; an empty or missing id falls back to the default name. */
  function GetModel(env: Env, o: Options): (m: Model)
    ensures Truthy(o.openAiModelId) ==> m.id == o.openAiModelId.value
    ensures !Truthy(o.openAiModelId) ==> m.id == DefaultModelId
    ensures m.info == o.openAiModelInfo.GetOr(env.saneDefaults)
  {
    Model(OrElse(o.openAiModelId, DefaultModelId), o.openAiModelInfo.GetOr(env.saneDefaults))
  }

  /**
   * For an id that no registry table knows, both providers resolve the same
   * model; for an empty id they disagree, since the HTTP provider keeps "".
   */
  lemma GetModelComparedWithHttp(env: Env, o: Options)
    ensures Truthy(o.openAiModelId) && (forall k :: 0 <= k < 4 ==> o.openAiModelId.value !in env.Tables()[k]) ==>
      GetModel(env, o) == OpenAiProvider.GetModel(env, o)
    ensures o.openAiModelId == Some("") ==>
      GetModel(env, o).id == DefaultModelId && OpenAiProvider.GetModel(env, o).id == ""
  {
  }

  // ---------------------------------------------------------------------------
  // Dial request and payload
  // ---------------------------------------------------------------------------

  /** The URL and handshake headers of a new socket. */
  datatype Dial = Dial(url: string, headers: Headers)

  function DialFor(o: Options): (d: Dial)
    ensures Truthy(o.openAiBaseUrl) ==> d.url == o.openAiBaseUrl.value
    ensures !Truthy(o.openAiBaseUrl) ==> d.url == DefaultUrl
    ensures d.headers.Keys == {AuthorizationHeader, TaskIdHeader}
    ensures d.headers[AuthorizationHeader] == Some("Bearer " + Interpolate(o.openAiApiKey))
    ensures d.headers[TaskIdHeader] == o.taskId
  {
    Dial(OrElse(o.openAiBaseUrl, DefaultUrl),
         map[AuthorizationHeader := Some("Bearer " + Interpolate(o.openAiApiKey)), TaskIdHeader := o.taskId])
  }

  /** The JSON request frame; `None` fields are left out by `JSON.stringify`. */
  datatype Payload = Payload(messages: seq<Turn>, model: string, temperature: Option<real>, maxTokens: Option<int>, stream: bool)

  function BuildPayload(env: Env, o: Options, systemPrompt: string, messages: seq<Turn>): (p: Payload)
    ensures |p.messages| == |messages| + 1
    ensures p.messages[0] == Turn(System, systemPrompt) && p.messages[1..] == messages
    ensures p.model == GetModel(env, o).id
    ensures o.openAiModelInfo.None? ==> p.temperature.None? && p.maxTokens.None?
    ensures o.openAiModelInfo.Some? ==>
      p.temperature == o.openAiModelInfo.value.temperature && p.maxTokens == o.openAiModelInfo.value.maxTokens
    ensures p.stream
  {
    var info := o.openAiModelInfo;
    Payload([Turn(System, systemPrompt)] + messages, GetModel(env, o).id,
            if info.Some? then info.value.temperature else None,
            if info.Some? then info.value.maxTokens else None,
            true)
  }

  /**
   * Unlike the HTTP provider, the WebSocket payload forwards a zero or
   * negative token limit unchanged.
   */
  lemma MaxTokensNotGated(env: Env, o: Options, systemPrompt: string, messages: seq<Turn>)
    requires o.openAiModelInfo.Some? && o.openAiModelInfo.value.maxTokens.Some?
    requires o.openAiModelInfo.value.maxTokens.value <= 0
    ensures BuildPayload(env, o, systemPrompt, messages).maxTokens == o.openAiModelInfo.value.maxTokens
    ensures OpenAiProvider.CreateRequest(env, o, systemPrompt, messages).maxTokens.None?
  {
  }

  /**
   * Without configured model info the WebSocket payload sends no temperature,
   * where the HTTP provider sends the sane-default one (outside the o1/o3/o4
   * family, which sends none).
   */
  lemma NoDefaultTemperature(env: Env, o: Options, systemPrompt: string, messages: seq<Turn>)
    requires o.openAiModelInfo.None?
    requires !OpenAiProvider.IsReasoningFamily(OpenAiProvider.GetModel(env, o).id)
    ensures BuildPayload(env, o, systemPrompt, messages).temperature.None?
    ensures OpenAiProvider.CreateRequest(env, o, systemPrompt, messages).temperature == env.saneDefaults.temperature
  {
  }

  // ---------------------------------------------------------------------------
  // Usage
  // ---------------------------------------------------------------------------

  /** Usage counters of an inbound frame; there are no cache counters on this transport. */
  datatype WsUsage = WsUsage(promptTokens: Option<int>, completionTokens: Option<int>)

  /** `getUsageData`: missing counters read as 0 and both cache counts are always 0. */
  function UsageData(env: Env, info: ModelInfo, u: WsUsage): (e: Event)
    ensures e.Usage?
    ensures e.inputTokens == CountOrZero(u.promptTokens)
    ensures e.outputTokens == CountOrZero(u.completionTokens)
    ensures e.cacheWriteTokens == 0 && e.cacheReadTokens == 0
    ensures e.totalCost == env.cost(info, e.inputTokens, e.outputTokens, 0, 0)
  {
    var input := CountOrZero(u.promptTokens);
    var output := CountOrZero(u.completionTokens);
    Usage(input, output, 0, 0, env.cost(info, input, output, 0, 0))
  }

  /** A WebSocket usage report equals an HTTP one that carries no cache counters. */
  lemma UsageAgreesWithHttp(env: Env, info: ModelInfo, u: WsUsage)
    ensures UsageData(env, info, u)
         == OpenAiProvider.UsageEvent(env, info, OpenAiProvider.CompletionUsage(u.promptTokens, u.completionTokens, None, None))
  {
  }

  // ---------------------------------------------------------------------------
  // Inbound frames
  // ---------------------------------------------------------------------------

  /** A parsed inbound JSON object (`WebSocketMessage`). */
  datatype WsMessage = WsMessage(choices: seq<Choice>, usage: Option<WsUsage>, error: Option<string>)

  /**
   * Raw frame text as `JSON.parse` sees it: not JSON at all, the JSON `null`
   * (reading `.error` of it throws), or any other value. A JSON value that is
   * not an object reads as an object with none of the fields.
   */
  datatype Frame = Unparsable | NullValue | Value(message: WsMessage)

  /** Why the awaited promise is rejected. */
  datatype Failure = ServerError(message: string) | Thrown

  /** What `messageHandler` does with one frame. */
  datatype Verdict = Reject(failure: Failure) | Deliver(event: Event) | Ignore

  /** Error before content before usage; `reasoning_content` is never surfaced. */
  function Classify(env: Env, info: ModelInfo, f: Frame): (v: Verdict)
    ensures v.Reject? <==> f.Unparsable? || f.NullValue? || (f.Value? && Truthy(f.message.error))
    ensures f.Value? && Truthy(f.message.error) ==> v == Reject(ServerError(f.message.error.value))
    ensures v.Reject? && !f.Value? ==> v.failure == Thrown
    ensures (v.Deliver? && v.event.Text?) <==>
      f.Value? && !Truthy(f.message.error) && FirstContent(f.message.choices) != ""
    ensures v.Deliver? && v.event.Text? ==> v.event.text == FirstContent(f.message.choices)
    ensures (v.Deliver? && v.event.Usage?) <==>
      f.Value? && !Truthy(f.message.error) && FirstContent(f.message.choices) == "" && f.message.usage.Some?
    ensures v.Deliver? && v.event.Usage? ==> f.Value? && f.message.usage.Some? && v.event == UsageData(env, info, f.message.usage.value)
    ensures v.Deliver? ==> !v.event.Reasoning?
  {
    match f
    case Unparsable => Reject(Thrown)
    case NullValue => Reject(Thrown)
    case Value(m) =>
      if Truthy(m.error) then Reject(ServerError(m.error.value))
      else if FirstContent(m.choices) != "" then Deliver(Text(FirstContent(m.choices)))
      else if m.usage.Some? then Deliver(UsageData(env, info, m.usage.value))
      else Ignore
  }

  /** Replacing the reasoning delta of a frame never changes what the handler does with it. */
  lemma ReasoningIgnored(env: Env, info: ModelInfo, m: WsMessage, reasoning: Option<string>)
    requires |m.choices| > 0 && m.choices[0].delta.Some?
    ensures var d := m.choices[0].delta.value.(reasoningContent := reasoning);
            var m' := m.(choices := m.choices[0 := Choice(Some(d))]);
            Classify(env, info, Value(m')) == Classify(env, info, Value(m))
  {
  }

  /** An error field rejects, whatever content or usage the frame also carries. */
  lemma ErrorTakesPrecedence(env: Env, info: ModelInfo, m: WsMessage, choices: seq<Choice>, usage: Option<WsUsage>)
    requires Truthy(m.error)
    ensures Classify(env, info, Value(m.(choices := choices, usage := usage))) == Reject(ServerError(m.error.value))
  {
  }

  // ---------------------------------------------------------------------------
  // One call's listener session
  // ---------------------------------------------------------------------------

  type Positive = n: nat | n > 0 witness 1

  /** How the caller consumes the stream: to the end, or abandoning it after `count` events. */
  datatype Consumer = ReadAll | StopAfter(count: Positive) {
    /** The consumer after it has received one more event. */
    function Next(): Consumer
      requires this != StopAfter(1)
    {
      match this
      case ReadAll => ReadAll
      case StopAfter(n) => StopAfter(n - 1)
    }
  }

  /**
   * How the consuming loop ended, if it did: there is no normal completion.
   * `Waiting` awaits the next frame; `Stranded` awaits a promise that nothing
   * will settle any more, because the handler replaced the awaited promise
   * after a frame it neither resolved nor rejected with.
   */
  datatype Exit = Rejected(failure: Failure) | Abandoned | Waiting | Stranded

  /**
   * The outcome of a session: the events yielded, how many frames the
   * listener handled while the loop could still observe them, how the loop
   * ended, and whether the listener is still attached to the socket.
   */
  datatype Session = Session(events: seq<Event>, consumed: nat, exit: Exit, listenerAttached: bool)

  /** The events the handler delivers for the first `n` frames. */
  function Delivered(env: Env, info: ModelInfo, frames: seq<Frame>, n: nat): seq<Event>
    decreases n
  {
    if n == 0 || frames == [] then []
    else (match Classify(env, info, frames[0]) case Deliver(e) => [e] case _ => [])
         + Delivered(env, info, frames[1..], n - 1)
  }

  /** The handler delivers an event for each of the first `n` frames. */
  predicate AllDelivered(env: Env, info: ModelInfo, frames: seq<Frame>, n: nat) {
    forall i :: 0 <= i < n && i < |frames| ==> Classify(env, info, frames[i]).Deliver?
  }

  /** A stop-after consumer that has not yet received all the events it wants. */
  predicate WantsMore(c: Consumer, received: nat) {
    c.ReadAll? || received < c.count
  }

  /** Shifting past a delivered frame. */
  lemma AllDeliveredStep(env: Env, info: ModelInfo, frames: seq<Frame>, n: nat)
    requires frames != [] && Classify(env, info, frames[0]).Deliver?
    ensures AllDelivered(env, info, frames, n + 1) <==> AllDelivered(env, info, frames[1..], n)
  {
  }

  /**
   * The consuming loop over the frames that arrive on the socket, each frame
   * arriving while the loop awaits the current promise. Every frame before
   * the last one handled delivers an event; the loop ends on a rejection (the
   * listener is detached), is abandoned by the consumer (detached), is
   * stranded by an ignored frame (still attached), or still waits (attached).
   */
  function Listen(env: Env, info: ModelInfo, frames: seq<Frame>, consumer: Consumer): (s: Session)
    ensures s.consumed <= |frames|
    ensures s.events == Delivered(env, info, frames, s.consumed)
    ensures |s.events| == if s.exit.Rejected? || s.exit.Stranded? then s.consumed - 1 else s.consumed
    ensures s.listenerAttached <==> s.exit.Waiting? || s.exit.Stranded?
    ensures s.exit.Waiting? ==>
      s.consumed == |frames| && AllDelivered(env, info, frames, |frames|) && WantsMore(consumer, |s.events|)
    ensures s.exit.Rejected? ==>
      && 0 < s.consumed
      && Classify(env, info, frames[s.consumed - 1]) == Reject(s.exit.failure)
      && AllDelivered(env, info, frames, s.consumed - 1)
      && WantsMore(consumer, |s.events|)
    ensures s.exit.Stranded? ==>
      && 0 < s.consumed
      && Classify(env, info, frames[s.consumed - 1]) == Ignore
      && AllDelivered(env, info, frames, s.consumed - 1)
      && WantsMore(consumer, |s.events|)
    ensures s.exit.Abandoned? ==>
      consumer.StopAfter? && |s.events| == consumer.count && AllDelivered(env, info, frames, s.consumed)
    ensures forall e :: e in s.events ==> !e.Reasoning?
    decreases |frames|
  {
    if frames == [] then
      Session([], 0, Waiting, true)
    else
      match Classify(env, info, frames[0])
      case Reject(f) =>
        Session([], 1, Rejected(f), false)
      case Ignore =>
        Session([], 1, Stranded, true)
      case Deliver(e) =>
        if consumer == StopAfter(1) then
          Session([e], 1, Abandoned, false)
        else
          var s := Listen(env, info, frames[1..], consumer.Next());
          AllDeliveredStep(env, info, frames, s.consumed);
          AllDeliveredStep(env, info, frames, if s.consumed > 0 then s.consumed - 1 else 0);
          s.(events := [e] + s.events, consumed := s.consumed + 1)
  }

  /** Every usage event the handler delivers is priced with `info` and has no cache counts. */
  lemma {:induction false} DeliveredUsagesPriced(env: Env, info: ModelInfo, frames: seq<Frame>, n: nat)
    ensures forall e :: e in Delivered(env, info, frames, n) && e.Usage? ==>
      e.cacheWriteTokens == 0 && e.cacheReadTokens == 0 && e.totalCost == env.cost(info, e.inputTokens, e.outputTokens, 0, 0)
    decreases n
  {
    if n > 0 && frames != [] {
      DeliveredUsagesPriced(env, info, frames[1..], n - 1);
    }
  }

  /** One `createMessage` call: the frames sent and the session that follows. */
  datatype WsCall = ConnectFailed | Streamed(sent: seq<Payload>, session: Session)

  /**
   * `connected` is the outcome of `ensureConnected`; when it fails nothing is
   * sent. Otherwise exactly one request frame naming the resolved model goes
   * out before any frame is read, and the session is the listener session
   * over the inbound frames: the caller receives the events those frames
   * deliver, never a reasoning event, with usage priced by the resolved
   * model; the listener stays attached only while the loop waits or is
   * stranded, and a server error that ends it came from one of the frames.
   */
  function CreateMessage(env: Env, o: Options, systemPrompt: string, messages: seq<Turn>,
                         connected: bool, frames: seq<Frame>, consumer: Consumer): (c: WsCall)
    ensures c.ConnectFailed? <==> !connected
    ensures c.Streamed? ==> c.sent == [BuildPayload(env, o, systemPrompt, messages)]
    ensures c.Streamed? ==> c.session == Listen(env, GetModel(env, o).info, frames, consumer)
    ensures c.Streamed? ==> c.session.events == Delivered(env, GetModel(env, o).info, frames, c.session.consumed)
    ensures c.Streamed? ==>
      && |c.sent| == 1
      && c.sent[0].model == GetModel(env, o).id
      && c.sent[0].messages == [Turn(System, systemPrompt)] + messages
      && c.sent[0].stream
    ensures c.Streamed? ==> forall e :: e in c.session.events ==> !e.Reasoning?
    ensures c.Streamed? ==> forall e :: e in c.session.events && e.Usage? ==>
      e.totalCost == env.cost(GetModel(env, o).info, e.inputTokens, e.outputTokens, 0, 0)
    ensures c.Streamed? ==> (c.session.listenerAttached <==> c.session.exit.Waiting? || c.session.exit.Stranded?)
    ensures c.Streamed? && c.session.exit.Rejected? && c.session.exit.failure.ServerError? ==>
      exists i :: 0 <= i < |frames| && frames[i].Value? && frames[i].message.error == Some(c.session.exit.failure.message)
  {
    if !connected then ConnectFailed
    else
      var info := GetModel(env, o).info;
      var s := Listen(env, info, frames, consumer);
      DeliveredUsagesPriced(env, info, frames, s.consumed);
      assert s.exit.Rejected? ==> Classify(env, info, frames[s.consumed - 1]) == Reject(s.exit.failure);
      Streamed([BuildPayload(env, o, systemPrompt, messages)], s)
  }

  /** A usage-only frame yields a usage event and the stream stays open. */
  lemma UsageFrameKeepsStreamOpen(env: Env, info: ModelInfo)
    ensures var s := Listen(env, info, [Value(WsMessage([], Some(WsUsage(Some(10), Some(2))), None))], ReadAll);
            s.events == [Usage(10, 2, 0, 0, env.cost(info, 10, 2, 0, 0))] && s.exit == Waiting && s.listenerAttached
  {
  }

  /** An error frame mid-stream ends the stream with that message; later frames are not read. */
  lemma ErrorFrameEndsStream(env: Env, info: ModelInfo)
    ensures var frames := [
              Value(WsMessage([Choice(Some(Delta(Some("Hi"), None)))], None, None)),
              Value(WsMessage([], None, Some("rate limited"))),
              Value(WsMessage([Choice(Some(Delta(Some("late"), None)))], None, None))];
            var s := Listen(env, info, frames, ReadAll);
            s.events == [Text("Hi")] && s.exit == Rejected(ServerError("rate limited")) && !s.listenerAttached
  {
  }

  /**
   * A frame with neither content, usage nor error strands the loop: the
   * handler replaces the awaited promise without settling it, so a later
   * text or error frame never reaches the caller and the listener stays.
   */
  lemma EmptyFrameStrandsStream(env: Env, info: ModelInfo)
    ensures var frames := [
              Value(WsMessage([Choice(Some(Delta(Some(""), None)))], None, None)),
              Value(WsMessage([Choice(Some(Delta(Some("Hi"), None)))], None, None)),
              Value(WsMessage([], None, Some("boom")))];
            var s := Listen(env, info, frames, ReadAll);
            s.events == [] && s.exit == Stranded && s.listenerAttached
  {
  }
}

=== FILE: wrappers.dfy ===
/** Optional values: the model's stand-in for JavaScript's `undefined`. */
module Wrappers {

  datatype Option<+T> = None | Some(value: T) {

    /** `this ?? default`: the value when present, otherwise `default`. */
    function GetOr(default: T): T {
      match this
      case Some(v) => v
      case None => default
    }
  }
}
